=== FILE: README.md ===
# still: the decision logic of the driver, in Dafny

`still` freezes the screen of a wlroots-based Wayland compositor. It captures every
output with screencopy, shows the frozen image on a layer-shell overlay, runs a
shell command while the freeze is on, and exits with the command's status once the
command ends. This project models the decision logic of its single-threaded driver
in `main.c`. Wayland, `poll`, the signalfd and `fork` are replaced by what they
report. The model has five parts:

- **Options** (`options.dfy`): the `getopt` loop for the option string `c:hp` and
  the missing-command check. It also includes the `argv[0]` default `"still"`.
- **Registry** (`registry.dfy`, `overlays.dfy`): the registry listener. Each known
  singleton global is bound into its slot at a fixed version. Each `wl_output`
  becomes a new PENDING overlay at the end of the list. The geometry listener
  stores only the transform.
- **Gate** (`gate.dfy`): one pass of the `for` loop over the overlays.
  - PENDING overlays are sent to capture with the `-p` flag.
  - PENDING and WAITING overlays hold the launch back.
  - A FAILED overlay sets status 1, but the pass does not stop there.
  - `all_ready` holds exactly when every overlay is READY.
- **Driver** (`driver.dfy`): one iteration of the main loop. Display I/O errors,
  the signalfd read, `waitpid` and `fork` are parameters of the iteration. A
  reaped child ends the loop with its exit code, or with -1 after a death by
  signal. The gate runs only while `child_pid == -1`. `Run` strings iterations
  together.
- **Teardown and main** (`teardown.dfy`, `program.dfy`): the release sequence after
  the loop, the start-up order (options, signalfd, connection), and the status
  `main` returns. The operating system reports that status modulo 256.

The capture module (`capture.h`, `overlay.h`) is not part of this model. Its
effect on an overlay is one opaque event, `CaptureProgress`, which sets that
overlay's status to any value. This also covers a status change made inside the
`capture` call itself, provided the call changes no other overlay: nothing reads
the statuses between the gate and the next dispatch. The properties below therefore hold however the capture module behaves.

The model keeps the following behaviour of the code as written:

- There is no initial roundtrip before the loop. If the first dispatch announces
  no output (other globals may already have arrived), the gate sees an empty list
  and launches the command at once (`Driver.NoOutputsLaunchAtOnce`).
- There is no check that the required globals were announced. Teardown calls the
  destructor of every slot, bound or not, and an unbound slot passes NULL. The
  destructors belong to libwayland, which is not part of this model. They
  dereference the proxy, so the model's teardown stops at the first such call
  (`DestroyGlobal(slot, None)`). In that case `main` ends as `NullDestroy(slot)`:
  it never returns a status and never disconnects (`Teardown.Performed`,
  `Program.Main`).
- A death by signal is reported as `status = -1`, not as a signal-based code. The
  operating system turns it into 255, which is also what a command exiting with
  255 produces (`Program.SignalDeathSeenAs255`).
- `-c ""` counts as a command: the `if (!command)` test (main.c:132) looks at the
  pointer, not the string's length.

## Model

| member | source | states |
|---|---|---|
| `Options.Scan` | main.c:114-136 | The loop from any position, given correct loop variables so far: help iff a `-h` comes before any stopping option; failure iff an unknown option comes first; missing command iff only `-p` items; otherwise the last `-c` argument and the `-p` flag |
| `Options.Decide` | main.c:114-136 | The first `-h` reached means help; the first unknown option reached means failure; with neither, the run proceeds iff some `-c` was given, using the last `-c` argument, with the cursor flag set iff `-p` appeared; if only `-p` items were given, the command is missing |
| `Options.BinName` | main.c:109-112 | The program name is `argv[0]` whenever that is present and non-empty, and exactly "still" when it is NULL or empty |
| `Program.Startup` | main.c:114-170 | `-h` quits with status 0 and usage on stdout; an unknown option or a missing `-c` quits with status 1 and usage on stderr; none of these makes a setup call; once options proceed, a failed signal setup quits with status 1, no usage and no connection attempt, and a failed connection quits with status 1 and no usage after both setup calls; the loop is entered iff all three succeed, with the decided command and cursor flag |
| `Registry.Classify` | main.c:23-48 | A known interface name is recognised as exactly the interface of that name; any other name is recognised as none of the six |
| `Registry.OnGlobal` | main.c:18-49 | A `wl_output` appends exactly one PENDING overlay holding that output at version 4 and keeps every earlier overlay and every slot; another known interface writes only its own slot, with its fixed bind version; an unknown interface changes nothing |
| `Overlays.OnGeometry` | main.c:60-67 | A geometry event sets the transform of its own overlay and changes nothing else: not the output, not the status, not any other overlay |
| `Overlays.OnCaptureProgress` | main.c:253-258 | The capture module's opaque effect sets the status of its own overlay and changes nothing else: not its output, not its transform, not any other overlay |
| `Gate.Visit` | main.c:253-268 | One `switch` arm: a capture call for the overlay is appended exactly when it is PENDING; the failure flag is raised exactly by FAILED; `all_ready` survives only READY |
| `Gate.VisitKeepsSummary` | main.c:253-268 | One iteration of the `switch` keeps the loop variables exact: `all_ready` means all visited are READY, failure means some visited is FAILED, and the requests are exactly the visited PENDING overlays, in order |
| `Gate.Scan` | main.c:250-269 | Starting from correct loop variables, the rest of the loop yields loop variables that are correct for the whole list |
| `Gate.Tick` | main.c:249-269 | `all_ready` iff every overlay is READY (true for an empty list); failure iff some overlay is FAILED; the capture calls are exactly the PENDING overlays, once each, in list order, each with the same cursor flag |
| `Gate.LaunchExcludesFailureAndCapture` | main.c:249-271 | A pass that allows the launch neither sets the failure status nor issues any capture call |
| `Gate.PendingAfterFailureIsCaptured` | main.c:253-268 | A PENDING overlay after a FAILED one is still sent to capture in the same pass, while that pass sets the failure status |
| `Driver.ChildStatus` | main.c:234-244 | A normal exit gives its exit code; a death by signal gives a negative status, which no exit code equals |
| `Driver.ApplyAllAppendsOutputs` | main.c:28-37 | However announcements, geometry events and capture progress interleave in a dispatch, the overlays afterwards hold the earlier outputs followed by one output per `wl_output` announcement, in announcement order, against an independent reference list |
| `Driver.ApplyAllKeepsLastBinding` | main.c:23-48 | After any dispatched events, each singleton slot holds the binding of the last announcement of its interface, or its earlier value if there was none, against an independent reference definition |
| `Driver.GateStep` | main.c:248-288 | After a fork, the block does nothing. Before one, it forks iff every overlay is READY, and the capture calls are exactly the PENDING overlays with the cursor flag. A FAILED overlay or a failed fork leaves the loop with status 1. A successful fork records the child. Otherwise nothing changes |
| `Driver.Step` | main.c:180-289 | After the loop has been left, an iteration does nothing. A display I/O error, a failed dispatch, a failed signalfd read or a failed `waitpid` leaves the loop with status 1, with no fork, no capture call and the child unchanged. The events a dispatch delivered are applied, a failed dispatch included. An iteration that reaches the gate does exactly what `GateStep` decides for the state after the dispatch, so it stays in the loop unless the gate breaks. A fork happens only while no child exists and every overlay is READY. After a fork there are no more capture calls or forks and the child is kept. The loop continues only with status 0 |
| `Driver.GateDecides` | main.c:248-288 | In an iteration that reaches the gate with no child: fork iff every overlay is READY after the dispatch; the capture calls are exactly the PENDING overlays, each with the cursor flag; a FAILED overlay means status 1, no fork, and leaving the loop; with some overlay still PENDING or WAITING and none FAILED, the loop keeps waiting with the dispatched events applied and nothing else changed |
| `Driver.ChildExitEndsLoop` | main.c:216-246 | A reaped child always ends the loop, with no fork and no capture call; the status is its exit code (0 included) or -1 after a signal |
| `Driver.StoppedIsFinal` | main.c:180-289 | Once the loop has been left, any further iterations change nothing and make no call |
| `Driver.LaunchedStaysLaunched` | main.c:248-288 | After the fork, no iteration makes a capture call or forks again, and the child stays the same |
| `Driver.AtMostOneFork` | main.c:178-288 | Any run forks at most once, and not at all from a state that has already forked or left the loop |
| `Driver.RequestsCarryCursor` | main.c:254-257 | Every capture call of any run carries the cursor flag the run started with |
| `Driver.FailureNeverLaunches` | main.c:264-272 | Once the gate sees a FAILED overlay, the run ends with status 1, the loop is left, and the command is never forked |
| `Driver.LaunchedKeepsWaiting` | main.c:180-288 | After the fork, any number of iterations that reach the gate keep the loop running with status 0 and the same child, with no capture call and no fork |
| `Driver.RunKeepsValid` | main.c:180-289 | Every run from a valid state stays in the loop only while the status is 0 |
| `Driver.NoOutputsLaunchAtOnce` | main.c:175-272 | If the first dispatch announces no `wl_output` (any other global may arrive), the first iteration forks at once, with no capture call, and stays in the loop with status 0 |
| `Driver.LaunchThenWait` | main.c:175-288 | A run whose first dispatch announces no output forks once and then, through any iterations that reach the gate, is still in the loop with that child and status 0, so the reap of the command can still come |
| `Teardown.Teardown` | main.c:291-305 | The signalfd is closed first and at no other point. Every overlay is destroyed exactly once, in list order, before the array is freed and before the registry or any global goes. The overlay array is freed exactly once and the registry is destroyed exactly once. Each global slot is destroyed exactly once, after the registry, with whatever it holds. The display disconnect is last and happens once |
| `Teardown.FirstUnbound` | main.c:300-304 | None iff every global slot is bound; otherwise an unbound slot, and every slot destroyed before it is bound |
| `Teardown.Performed` | main.c:291-305 | The teardown carried out is a prefix of the full one and destroys every overlay. With every slot bound it is the whole teardown. Otherwise it ends at the NULL destroy of the first unbound slot and never disconnects |
| `Program.ProcessExitStatus` | main.c:307 | The reported exit status lies in 0..255, equals the returned status when that is already in range, and agrees with it modulo 256 |
| `Program.AfterLoop` | main.c:289-307 | While the loop runs, nothing is released. Once the loop is left, the releases are exactly the teardown carried out on the final globals (`Teardown.Performed`), and `main` returns the loop's status after a teardown ending in the disconnect exactly when every slot is bound. Otherwise it ends at the NULL destroy of the first unbound slot, without disconnecting |
| `Program.Main` | main.c:104-308 | A start-up failure returns its status with nothing forked, captured or released. Any run forks at most once, and only after start-up entered the loop. Every capture call carries the `-p` flag. When `main` returns after the loop, it returns the status the loop ended with. After the loop, the releases are exactly the teardown carried out on the globals the run ends with; they end in the disconnect when `main` returns, and in a NULL destroy otherwise |
| `Program.ChildStatusPropagates` | main.c:234-307 | When the launched command is reaped and every slot is bound, `main` returns its exit code (which the system also reports), or -1 after a signal, after the teardown. With an unbound slot, it ends at that slot's NULL destroy |
| `Program.SignalDeathSeenAs255` | main.c:239-243 | The -1 after a signal death differs from exit code 255 inside `main`, but both are reported as 255 |

## Left out

- Wayland I/O (`prepare_read`, `flush`, `poll`, `read_events`, `cancel_read`, `dispatch_pending`): these are an abstract result per iteration. Any failure means status 1 and leaving the loop, and a failed dispatch keeps the events it already delivered (`Driver.Step`).
- The signalfd and `sigprocmask` setup: these are one success flag (`signalOk`). The four failure paths all return 1 with a diagnostic.
- `fork` in the child process: `execl`, and the child's own teardown when `execl` fails, are not modelled. Only the parent is modelled.
- `waitpid` returning 0 under WNOHANG, or a status that is neither an exit nor a signal death: these leave `wstatus` undefined or fall through, and are not modelled. `waitpid(-1, …)` (main.c:228) reaps any child of the process, including one inherited across `exec` (as in `sh -c 'sleep 1 & exec still -c …'`). Such a reap can come before the launch, or after it in place of the command's, and its status ends the loop either way. The model allows both: a reap ends the loop with the status it reports, whether or not the command was launched.
- `Overlays.NewOverlay`: a new overlay starts as PENDING because the C code zero-fills it and PENDING is taken to be the zero enumerator of the status type. That type is declared in `capture.h`, which is not part of this model.
- The opaque capture event assumes that `capture(o)` changes the status of no overlay other than `o`. Under that assumption, nothing reads the statuses between the gate and the next dispatch, so a change made inside the call is the same as a later event.
- The internals of `capture`, `overlay_destroy`, screencopy, the shm buffers and `array.h`: these are not part of this model. Capture is an opaque status change, and destroying an overlay is a single action.
- Each overlay is captured exactly once: this depends on `capture` moving the status out of PENDING, which is not part of this model. The gate alone re-requests an overlay that stays PENDING.
- The `wl_output_add_listener` call on every tick where an overlay is PENDING: it is not modelled as an effect, and geometry events are accepted for any overlay index.
- Listener data pointers: overlays are identified by their index in the model. In C, the geometry and capture listeners hold pointers into the overlay array. An output announced after the first tick can make `array_push` move that array. Pointer validity is not modelled.
- The other `wl_output` events (mode, done, scale, name, description) and `global_remove`: their handlers are empty, so they change nothing. `GlobalRemoved` is applied as a no-op.
- libwayland's proxy destructors are not part of this model. A destructor handed NULL is taken to end the program at that call, because the destructors dereference the proxy. What the crash looks like (the signal, the exit status) is not modelled.
- The usage text, `psignal` and `perror` diagnostics: only the stream the usage goes to is kept.
- The `getopt` tokenisation of `argv` (combined flags, argument permutation, `--`): the model's input is the sequence of values `getopt` returns.
- Integer widths: registry names (`uint32_t`) and transforms (`int32_t`) are unbounded `nat`/`int`. No operation in the model depends on their width.

=== FILE: driver.dfy ===
/**
 The single-threaded main loop of `still`, one iteration at a time. Wayland I/O,
 `poll`, the signalfd, `waitpid` and `fork` are replaced by what they report: each
 iteration is told whether the display I/O failed and which protocol events were
 dispatched, what the signalfd delivered, and what `fork` would return.
 */
module Driver {
  import opened Wrappers
  import opened Overlays
  import Registry
  import Gate

  /** A protocol event dispatched to one of the program's listeners. */
  datatype Event =
    | GlobalAnnounced(name: nat, iface: string, version: nat)
    | GlobalRemoved(name: nat)
    | OutputGeometry(index: nat, transform: int)
    | CaptureProgress(index: nat, status: Status)   // the capture module changing an overlay's status

  /** The display half of an iteration: prepare_read, flush, poll, read_events and dispatch_pending. */
  datatype Io =
    | IoError                              // one of prepare_read, flush, poll or read_events failed
    | Dispatched(events: seq<Event>)       // everything succeeded; these events were dispatched
    | DispatchError(events: seq<Event>)    // dispatch_pending failed after dispatching these events

  /** An exit code as `WEXITSTATUS` extracts it. */
  type ExitCode = c: int | 0 <= c < 256

  /** How a reaped child ended. */
  datatype Termination = Exited(code: ExitCode) | Signaled(signal: nat)

  /** The signalfd half of an iteration. */
  datatype Signal =
    | Quiet                        // no readiness on the signalfd
    | ReadError                    // the read returned fewer bytes than a siginfo
    | OtherSignal                  // a siginfo for some signal other than SIGCHLD
    | ChildChanged(wait: Wait)     // a SIGCHLD siginfo, followed by waitpid

  datatype Wait = WaitError | Reaped(t: Termination)

  /** A process id as the parent sees it after a successful fork. */
  type Pid = p: int | p > 0 witness 1

  datatype Fork = ForkError | Forked(pid: Pid)

  /** What the environment reports during one iteration of the loop. */
  datatype Iteration = Iteration(io: Io, signal: Signal, fork: Fork)

  /** `child_pid`: -1 until the command has been forked. */
  datatype Child = NotLaunched | Launched(pid: Pid)

  /** The loop's variables; `running` is false once the loop has been left. */
  datatype Loop = Loop(globals: Registry.Globals, child: Child, status: int, running: bool)

  /** The state just before the first iteration. */
  function Init(): Loop
  {
    Loop(Registry.Empty(), NotLaunched, 0, true)
  }

  /** The loop condition `status == 0` is the only way to stay in the loop: a break always leaves it. */
  predicate Valid(s: Loop)
  {
    s.running ==> s.status == 0
  }

  /** One iteration: the state after it, the capture calls it made, and whether it called `fork`. */
  datatype Outcome = Outcome(next: Loop, requests: seq<Gate.CaptureRequest>, forked: bool)

  /** The status a reaped child leaves: its exit code, or -1 when a signal killed it. */
  function ChildStatus(t: Termination): (status: int)
    ensures t.Exited? ==> status == t.code
    ensures t.Signaled? <==> status < 0
  {
    match t
    case Exited(code) => code
    case Signaled(_) => -1
  }

  function Apply(g: Registry.Globals, e: Event): Registry.Globals
  {
    match e
    case GlobalAnnounced(name, iface, version) => Registry.OnGlobal(g, name, iface, version)
    case GlobalRemoved(_) => g
    case OutputGeometry(i, t) => g.(overlays := OnGeometry(g.overlays, i, t))
    case CaptureProgress(i, st) => g.(overlays := OnCaptureProgress(g.overlays, i, st))
  }

  function ApplyAll(g: Registry.Globals, es: seq<Event>): Registry.Globals
    decreases |es|
  {
    if |es| == 0 then g else ApplyAll(Apply(g, es[0]), es[1..])
  }

  lemma {:induction false} ApplyAllSplit(g: Registry.Globals, es: seq<Event>, e: Event)
    ensures ApplyAll(g, es + [e]) == Apply(ApplyAll(g, es), e)
    decreases |es|
  {
    if |es| == 0 {
      assert es + [e] == [e];
    } else {
      assert (es + [e])[1..] == es[1..] + [e];
      ApplyAllSplit(Apply(g, es[0]), es[1..], e);
    }
  }

  /** The outputs an overlay list holds, in list order. */
  function OutputsOf(os: seq<Overlay>): (r: seq<Proxy>)
    ensures |r| == |os| && forall i :: 0 <= i < |os| ==> r[i] == os[i].output
  {
    seq(|os|, i requires 0 <= i < |os| => os[i].output)
  }

  /** An announcement of a `wl_output`. */
  predicate AnnouncesOutput(e: Event)
  {
    e.GlobalAnnounced? && e.iface == "wl_output"
  }

  /** Reference definition: the outputs bound for the `wl_output` announcements among `es`, in order. */
  function AnnouncedOutputs(es: seq<Event>): seq<Proxy>
    decreases |es|
  {
    if |es| == 0 then []
    else (if AnnouncesOutput(es[0]) then [Proxy(es[0].name, 4)] else []) + AnnouncedOutputs(es[1..])
  }

  /** One dispatched event appends an overlay exactly for an announced output, and never drops or reorders one. */
  lemma ApplyAppendsOutput(g: Registry.Globals, e: Event)
    ensures OutputsOf(Apply(g, e).overlays)
         == OutputsOf(g.overlays) + (if AnnouncesOutput(e) then [Proxy(e.name, 4)] else [])
  {
  }

  /**
   However announcements, geometry events and capture progress interleave, the
   overlay list afterwards holds the outputs it held before, followed by one output
   per `wl_output` announcement, in announcement order.
   */
  lemma {:induction false} ApplyAllAppendsOutputs(g: Registry.Globals, es: seq<Event>)
    ensures OutputsOf(ApplyAll(g, es).overlays) == OutputsOf(g.overlays) + AnnouncedOutputs(es)
    decreases |es|
  {
    if |es| > 0 {
      var g1 := Apply(g, es[0]);
      ApplyAppendsOutput(g, es[0]);
      ApplyAllAppendsOutputs(g1, es[1..]);
    }
  }

  /** Reference definition: the binding of the last announcement of the slot's interface among `es`, or `initial`. */
  function LastBinding(es: seq<Event>, s: Registry.Slot, initial: Option<Proxy>): Option<Proxy>
    decreases |es|
  {
    if |es| == 0 then initial
    else
      var last := |es| - 1;
      if es[last].GlobalAnnounced? && es[last].iface == Registry.InterfaceName(Registry.Single(s))
      then Some(Proxy(es[last].name, Registry.BindVersion(Registry.Single(s))))
      else LastBinding(es[..last], s, initial)
  }

  /** After any dispatched events each singleton slot holds the last announcement of its interface, if any. */
  lemma {:induction false} ApplyAllKeepsLastBinding(g: Registry.Globals, es: seq<Event>, s: Registry.Slot)
    ensures Registry.Get(ApplyAll(g, es), s) == LastBinding(es, s, Registry.Get(g, s))
    decreases |es|
  {
    if |es| > 0 {
      var last := |es| - 1;
      assert es == es[..last] + [es[last]];
      ApplyAllSplit(g, es[..last], es[last]);
      ApplyAllKeepsLastBinding(g, es[..last], s);
      var e := es[last];
      if e.GlobalAnnounced? && e.iface != Registry.InterfaceName(Registry.Single(s)) {
        var c := Registry.Classify(e.iface);
        if c.Some? && c.value.Single? {
          assert c.value.slot != s;
        }
      }
    }
  }

  /** Leaving the loop with `status`. */
  function Break(s: Loop, status: int): Loop
  {
    s.(status := status, running := false)
  }

  /**
   The `if (child_pid == -1)` block. After a fork it does nothing. Before one, it
   forks exactly when every overlay is READY, sends exactly the PENDING overlays
   to capture with the cursor flag, and leaves the loop with status 1 on a FAILED
   overlay or a failed fork; otherwise the state is kept, apart from the child a
   successful fork records.
   */
  function GateStep(s: Loop, fork: Fork, cursor: bool): (o: Outcome)
    ensures s.child.Launched? ==> o == Outcome(s, [], false)
    ensures s.child.NotLaunched? ==>
      var os := s.globals.overlays;
      && (o.forked <==> Gate.AllReady(os))
      && Gate.CoversPending(os, |os|, cursor, o.requests)
      && (Gate.AnyFailed(os) ==> o.next == Break(s, 1))
      && (o.forked && fork.ForkError? ==> o.next == Break(s, 1))
      && (o.forked && fork.Forked? ==> o.next == s.(child := Launched(fork.pid)))
      && (!o.forked && !Gate.AnyFailed(os) ==> o.next == s)
  {
    if s.child.Launched? then Outcome(s, [], false)
    else
      var v := Gate.Tick(s.globals.overlays, cursor);
      if v.failed then Outcome(Break(s, 1), v.requests, false)
      else if !v.allReady then Outcome(s, v.requests, false)
      else match fork
        case ForkError => Outcome(Break(s, 1), v.requests, true)
        case Forked(pid) => Outcome(s.(child := Launched(pid)), v.requests, true)
  }

  /**
   One iteration of the main loop. Once the loop has been left nothing happens any
   more. A failing call leaves the loop with status 1. The events a dispatch
   delivered are applied, a failed dispatch included. An iteration that reaches
   the gate does exactly what the gate decides for the state after the dispatch,
   so it stays in the loop unless the gate breaks. A fork happens only while no
   child exists and only when every overlay is READY; after a fork no capture call
   and no further fork happen; and the loop only continues with status 0.
   */
  function Step(s: Loop, it: Iteration, cursor: bool): (o: Outcome)
    ensures !s.running ==> o == Outcome(s, [], false)
    ensures o.forked ==> s.running && s.child.NotLaunched? && Gate.AllReady(o.next.globals.overlays)
    ensures s.child.Launched? ==> o.next.child == s.child && o.requests == [] && !o.forked
    ensures o.next.child.Launched? ==> o.forked || o.next.child == s.child
    ensures Valid(s) ==> Valid(o.next)
    ensures s.running && LoopError(it) ==>
      && !o.next.running && o.next.status == 1 && !o.forked && o.requests == []
      && o.next.child == s.child
    ensures s.running && (it.io.Dispatched? || it.io.DispatchError?) ==>
      o.next.globals == ApplyAll(s.globals, it.io.events)
    ensures s.running && ReachesGate(it) ==>
      o == GateStep(s.(globals := ApplyAll(s.globals, it.io.events)), it.fork, cursor)
  {
    if !s.running then Outcome(s, [], false)
    else
      var s1 := s.(globals := ApplyAll(s.globals, Delivered(it.io)));
      if LoopError(it) then Outcome(Break(s1, 1), [], false)
      else if it.signal.ChildChanged? then Outcome(Break(s1, ChildStatus(it.signal.wait.t)), [], false)
      else GateStep(s1, it.fork, cursor)
  }

  /** The events a dispatch delivered before the iteration went on or failed: none when the display I/O failed. */
  function Delivered(io: Io): seq<Event>
  {
    if io.IoError? then [] else io.events
  }

  /**
   An iteration in which a loop-owned call fails: prepare_read, flush, poll,
   read_events or dispatch_pending on the display side, or the signalfd read or
   waitpid on the signal side.
   */
  predicate LoopError(it: Iteration)
  {
    || it.io.IoError? || it.io.DispatchError?
    || (it.io.Dispatched? && (it.signal.ReadError? || it.signal == ChildChanged(WaitError)))
  }

  /** An iteration whose display and signal halves let the loop reach the gate. */
  predicate ReachesGate(it: Iteration)
  {
    it.io.Dispatched? && (it.signal.Quiet? || it.signal.OtherSignal?)
  }

  /**
   The launch gate inside an iteration that reaches it while no child exists:
   `fork` is called exactly when every overlay is READY after the dispatch (an
   empty list included); the capture calls are exactly the overlays PENDING at that
   point, all with the `-p` flag; a FAILED overlay sets status 1, prevents the fork
   and leaves the loop; while some overlay is still PENDING or WAITING and none has
   FAILED, the loop keeps waiting with the dispatched events applied.
   */
  lemma GateDecides(s: Loop, it: Iteration, cursor: bool)
    requires s.running && s.child.NotLaunched? && ReachesGate(it)
    ensures var os := ApplyAll(s.globals, it.io.events).overlays;
      var o := Step(s, it, cursor);
      && (o.forked <==> Gate.AllReady(os))
      && Gate.CoversPending(os, |os|, cursor, o.requests)
      && (Gate.AnyFailed(os) ==> !o.forked && o.next.status == 1 && !o.next.running)
      && (o.forked && it.fork.Forked? ==> o.next.child == Launched(it.fork.pid) && o.next.running == s.running)
      && (!Gate.AllReady(os) && !Gate.AnyFailed(os) ==>
            o.next == s.(globals := ApplyAll(s.globals, it.io.events)))
  {
  }

  /**
   A reaped child ends the loop: a normal exit leaves its exit code as the status
   (0 included, which the loop condition alone would not end), a death by signal
   leaves -1, which no exit code equals.
   */
  lemma ChildExitEndsLoop(s: Loop, es: seq<Event>, t: Termination, f: Fork, cursor: bool)
    requires s.running
    ensures var o := Step(s, Iteration(Dispatched(es), ChildChanged(Reaped(t)), f), cursor);
      && !o.next.running && !o.forked && o.requests == []
      && o.next.globals == ApplyAll(s.globals, es)
      && o.next.status == ChildStatus(t)
      && (t.Exited? ==> o.next.status == t.code)
      && (t.Signaled? ==> o.next.status == -1)
  {
  }

  /** The whole run over a sequence of iterations: final state, capture calls in order, and the number of forks. */
  datatype Trace = Trace(final: Loop, requests: seq<Gate.CaptureRequest>, forks: nat)

  function Run(s: Loop, its: seq<Iteration>, cursor: bool): Trace
    decreases |its|
  {
    if |its| == 0 then Trace(s, [], 0)
    else
      var o := Step(s, its[0], cursor);
      Then(o, Run(o.next, its[1..], cursor))
  }

  /** One iteration's calls followed by the rest of the run. */
  function Then(o: Outcome, rest: Trace): Trace
  {
    Trace(rest.final, o.requests + rest.requests, (if o.forked then 1 else 0) + rest.forks)
  }

  /** Appending a run to a trace: `Then` and concatenation of traces associate. */
  lemma ThenAssociates(o: Outcome, ra: Trace, rb: Trace)
    ensures Then(o, Trace(rb.final, ra.requests + rb.requests, ra.forks + rb.forks))
         == Trace(rb.final, Then(o, ra).requests + rb.requests, Then(o, ra).forks + rb.forks)
  {
  }

  /** Once the loop has been left, no later iteration changes anything. */
  lemma {:induction false} StoppedIsFinal(s: Loop, its: seq<Iteration>, cursor: bool)
    requires !s.running
    ensures Run(s, its, cursor) == Trace(s, [], 0)
    decreases |its|
  {
    if |its| > 0 {
      StoppedIsFinal(s, its[1..], cursor);
    }
  }

  /** After the fork the gate never runs again: no capture call, no second fork, the same child. */
  lemma {:induction false} LaunchedStaysLaunched(s: Loop, its: seq<Iteration>, cursor: bool)
    requires s.child.Launched?
    ensures Run(s, its, cursor).requests == []
    ensures Run(s, its, cursor).forks == 0
    ensures Run(s, its, cursor).final.child == s.child
    decreases |its|
  {
    if |its| > 0 {
      LaunchedStaysLaunched(Step(s, its[0], cursor).next, its[1..], cursor);
    }
  }

  /** The command is forked at most once in any run, and never from a run that has already forked or stopped. */
  lemma {:induction false} AtMostOneFork(s: Loop, its: seq<Iteration>, cursor: bool)
    ensures Run(s, its, cursor).forks <= (if s.running && s.child.NotLaunched? then 1 else 0)
    decreases |its|
  {
    if |its| > 0 {
      var o := Step(s, its[0], cursor);
      AtMostOneFork(o.next, its[1..], cursor);
      if o.forked {
        assert !o.next.running || o.next.child.Launched?;
      }
    }
  }

  /** Every capture call of a run carries the cursor flag the run was started with. */
  lemma {:induction false} RequestsCarryCursor(s: Loop, its: seq<Iteration>, cursor: bool)
    ensures forall k :: 0 <= k < |Run(s, its, cursor).requests| ==> Run(s, its, cursor).requests[k].cursor == cursor
    decreases |its|
  {
    if |its| > 0 {
      var o := Step(s, its[0], cursor);
      RequestsCarryCursor(o.next, its[1..], cursor);
      if s.running && s.child.NotLaunched? && ReachesGate(its[0]) {
        GateDecides(s, its[0], cursor);
      }
    }
  }

  /**
   A FAILED overlay seen by the gate dooms the run: the status is 1, the loop is
   left, and the command is never forked, whatever happens afterwards.
   */
  lemma FailureNeverLaunches(s: Loop, it: Iteration, rest: seq<Iteration>, cursor: bool)
    requires s.running && s.child.NotLaunched? && ReachesGate(it)
    requires Gate.AnyFailed(ApplyAll(s.globals, it.io.events).overlays)
    ensures Run(s, [it] + rest, cursor).forks == 0
    ensures Run(s, [it] + rest, cursor).final.status == 1
    ensures !Run(s, [it] + rest, cursor).final.running
  {
    GateDecides(s, it, cursor);
    var o := Step(s, it, cursor);
    assert ([it] + rest)[1..] == rest;
    StoppedIsFinal(o.next, rest, cursor);
  }

  /** Running two stretches of iterations one after the other is running them together. */
  lemma {:induction false} RunConcat(s: Loop, a: seq<Iteration>, b: seq<Iteration>, cursor: bool)
    ensures var ra := Run(s, a, cursor); var rb := Run(ra.final, b, cursor);
      Run(s, a + b, cursor) == Trace(rb.final, ra.requests + rb.requests, ra.forks + rb.forks)
    decreases |a|
  {
    if |a| == 0 {
      assert a + b == b;
    } else {
      var o := Step(s, a[0], cursor);
      assert (a + b)[0] == a[0];
      assert (a + b)[1..] == a[1..] + b;
      RunConcat(o.next, a[1..], b, cursor);
      var ra := Run(o.next, a[1..], cursor);
      ThenAssociates(o, ra, Run(ra.final, b, cursor));
    }
  }

  /**
   After the fork, the loop keeps waiting for the command: iterations that reach the
   gate leave the status at 0, keep the loop running and the child unchanged, and
   make no capture call and no fork.
   */
  lemma {:induction false} LaunchedKeepsWaiting(s: Loop, its: seq<Iteration>, cursor: bool)
    requires s.running && s.status == 0 && s.child.Launched?
    requires forall k :: 0 <= k < |its| ==> ReachesGate(its[k])
    ensures var r := Run(s, its, cursor);
      && r.final.running && r.final.status == 0 && r.final.child == s.child
      && r.requests == [] && r.forks == 0
    decreases |its|
  {
    if |its| > 0 {
      assert ReachesGate(its[0]);
      var o := Step(s, its[0], cursor);
      assert forall k :: 0 <= k < |its[1..]| ==> ReachesGate(its[1..][k]) by {
        forall k | 0 <= k < |its[1..]| ensures ReachesGate(its[1..][k]) {
          assert its[1..][k] == its[k + 1];
        }
      }
      LaunchedKeepsWaiting(o.next, its[1..], cursor);
    }
  }

  /** Every state a run reaches from a valid state is valid: the loop is only ever continuing with status 0. */
  lemma {:induction false} RunKeepsValid(s: Loop, its: seq<Iteration>, cursor: bool)
    requires Valid(s)
    ensures Valid(Run(s, its, cursor).final)
    decreases |its|
  {
    if |its| > 0 {
      RunKeepsValid(Step(s, its[0], cursor).next, its[1..], cursor);
    }
  }

  /**
   The loop has no initial roundtrip: if the first dispatch announces no output
   (it may announce any other global, or deliver nothing), the gate sees an empty
   list and forks at once, without any capture call.
   */
  lemma NoOutputsLaunchAtOnce(es: seq<Event>, pid: Pid, cursor: bool)
    requires forall k :: 0 <= k < |es| ==> !AnnouncesOutput(es[k])
    ensures var o := Step(Init(), Iteration(Dispatched(es), Quiet, Forked(pid)), cursor);
      o.forked && o.requests == [] && o.next.child == Launched(pid) && o.next.running && o.next.status == 0
  {
    NoOutputAnnounced(es);
    ApplyAllAppendsOutputs(Registry.Empty(), es);
    assert |OutputsOf(ApplyAll(Registry.Empty(), es).overlays)| == 0;
  }

  /**
   A launched command is waited for: after a first dispatch that announces no
   output forks the command, any number of iterations that reach the gate leave
   the loop running with that child, one fork made and no capture call, so the
   reap of the command can still come.
   */
  lemma LaunchThenWait(es: seq<Event>, pid: Pid, its: seq<Iteration>, cursor: bool)
    requires forall k :: 0 <= k < |es| ==> !AnnouncesOutput(es[k])
    requires forall k :: 0 <= k < |its| ==> ReachesGate(its[k])
    ensures var r := Run(Init(), [Iteration(Dispatched(es), Quiet, Forked(pid))] + its, cursor);
      && r.final.running && r.final.status == 0 && r.final.child == Launched(pid)
      && r.forks == 1 && r.requests == []
  {
    var first := Iteration(Dispatched(es), Quiet, Forked(pid));
    NoOutputsLaunchAtOnce(es, pid, cursor);
    var o := Step(Init(), first, cursor);
    LaunchedKeepsWaiting(o.next, its, cursor);
    assert ([first] + its)[0] == first;
    assert ([first] + its)[1..] == its;
  }

  lemma {:induction false} NoOutputAnnounced(es: seq<Event>)
    requires forall k :: 0 <= k < |es| ==> !AnnouncesOutput(es[k])
    ensures AnnouncedOutputs(es) == []
    decreases |es|
  {
    if |es| > 0 {
      assert !AnnouncesOutput(es[0]);
      NoOutputAnnounced(es[1..]);
    }
  }

}

=== FILE: gate.dfy ===
/**
 One pass of the launch gate over the overlay list, as the scheduler runs it while
 no command has been launched: every PENDING overlay is sent to the capture module
 with the cursor flag, WAITING and PENDING overlays hold the launch back, and a
 FAILED overlay sets the failure status. The pass does not stop at a FAILED
 overlay: later PENDING overlays are still sent to capture in the same pass.
 */
module Gate {
  import opened Overlays

  /** A call to the capture module for overlay `index`, carrying the `-p` flag. */
  datatype CaptureRequest = CaptureRequest(index: nat, cursor: bool)

  /** What one pass decides: the capture calls issued, whether the status became EXIT_FAILURE, and `all_ready`. */
  datatype Verdict = Verdict(requests: seq<CaptureRequest>, failed: bool, allReady: bool)

  predicate AllReady(os: seq<Overlay>)
  {
    forall i :: 0 <= i < |os| ==> os[i].status == Ready
  }

  predicate AnyFailed(os: seq<Overlay>)
  {
    exists i :: 0 <= i < |os| && os[i].status == Failed
  }

  /**
   `reqs` are capture calls for exactly the PENDING overlays among the first `n`,
   each once, in list order, each carrying `cursor`.
   */
  predicate CoversPending(os: seq<Overlay>, n: nat, cursor: bool, reqs: seq<CaptureRequest>)
    requires n <= |os|
  {
    && (forall k :: 0 <= k < |reqs| ==>
          reqs[k].index < n && os[reqs[k].index].status == Pending && reqs[k].cursor == cursor)
    && (forall k, l :: 0 <= k < l < |reqs| ==> reqs[k].index < reqs[l].index)
    && (forall i :: 0 <= i < n && os[i].status == Pending ==>
          exists k :: 0 <= k < |reqs| && reqs[k].index == i)
  }

  /** The loop variables of the pass after its first `n` iterations. */
  predicate Summarises(os: seq<Overlay>, cursor: bool, n: nat, v: Verdict)
  {
    && n <= |os|
    && (v.allReady <==> forall j :: 0 <= j < n ==> os[j].status == Ready)
    && (v.failed <==> exists j :: 0 <= j < n && os[j].status == Failed)
    && CoversPending(os, n, cursor, v.requests)
  }

  /**
   The body of the `for` loop for overlay `i` with status `s`: a capture call for
   `i` is added exactly when `s` is PENDING, the failure flag is raised exactly by
   FAILED, and `all_ready` survives only READY.
   */
  function Visit(v: Verdict, i: nat, s: Status, cursor: bool): (r: Verdict)
    ensures r.requests == (if s == Pending then v.requests + [CaptureRequest(i, cursor)] else v.requests)
    ensures r.failed <==> v.failed || s == Failed
    ensures r.allReady <==> v.allReady && s == Ready
  {
    match s
    case Pending => v.(requests := v.requests + [CaptureRequest(i, cursor)], allReady := false)
    case Waiting => v.(allReady := false)
    case Ready => v
    case Failed => v.(failed := true, allReady := false)
  }

  /** Adding a capture call for the PENDING overlay `i` extends the coverage from `i` to `i + 1` overlays. */
  lemma AppendKeepsCoverage(os: seq<Overlay>, cursor: bool, i: nat, reqs: seq<CaptureRequest>)
    requires i < |os| && os[i].status == Pending && CoversPending(os, i, cursor, reqs)
    ensures CoversPending(os, i + 1, cursor, reqs + [CaptureRequest(i, cursor)])
  {
    var next := reqs + [CaptureRequest(i, cursor)];
    assert forall k :: 0 <= k < |reqs| ==> next[k] == reqs[k];
    assert next[|reqs|] == CaptureRequest(i, cursor);
    forall j | 0 <= j < i + 1 && os[j].status == Pending
      ensures exists k :: 0 <= k < |next| && next[k].index == j
    {
      if j == i {
        assert next[|reqs|].index == i;
      } else {
        var k :| 0 <= k < |reqs| && reqs[k].index == j;
        assert next[k].index == j;
      }
    }
  }

  /** Without a new capture call, coverage extends over an overlay that is not PENDING. */
  lemma SkipKeepsCoverage(os: seq<Overlay>, cursor: bool, i: nat, reqs: seq<CaptureRequest>)
    requires i < |os| && os[i].status != Pending && CoversPending(os, i, cursor, reqs)
    ensures CoversPending(os, i + 1, cursor, reqs)
  {
  }

  /** One iteration of the loop keeps the loop variables faithful to the overlays visited. */
  lemma VisitKeepsSummary(os: seq<Overlay>, cursor: bool, i: nat, v: Verdict)
    requires i < |os| && Summarises(os, cursor, i, v)
    ensures Summarises(os, cursor, i + 1, Visit(v, i, os[i].status, cursor))
  {
    if os[i].status == Pending {
      AppendKeepsCoverage(os, cursor, i, v.requests);
    } else {
      SkipKeepsCoverage(os, cursor, i, v.requests);
    }
  }

  /** The `for` loop from index `i` on, with the loop variables so far in `v`. */
  function Scan(os: seq<Overlay>, cursor: bool, i: nat, v: Verdict): (r: Verdict)
    requires Summarises(os, cursor, i, v)
    ensures Summarises(os, cursor, |os|, r)
    decreases |os| - i
  {
    if i == |os| then v
    else
      VisitKeepsSummary(os, cursor, i, v);
      Scan(os, cursor, i + 1, Visit(v, i, os[i].status, cursor))
  }

  /**
   One pass of the gate. The command may be launched exactly when every overlay is
   READY (vacuously so for an empty list); the failure status is set exactly when
   some overlay is FAILED; the capture calls are exactly the PENDING overlays at the
   start of the pass, once each, in list order, all with the same cursor flag.
   */
  function Tick(os: seq<Overlay>, cursor: bool): (v: Verdict)
    ensures v.allReady <==> AllReady(os)
    ensures v.failed <==> AnyFailed(os)
    ensures CoversPending(os, |os|, cursor, v.requests)
  {
    Scan(os, cursor, 0, Verdict([], false, true))
  }

  /** A launch and a failure never happen in the same pass, and a launch issues no capture call. */
  lemma LaunchExcludesFailureAndCapture(os: seq<Overlay>, cursor: bool)
    ensures Tick(os, cursor).allReady ==> !Tick(os, cursor).failed && Tick(os, cursor).requests == []
  {
    var v := Tick(os, cursor);
    if |v.requests| > 0 {
      var i := v.requests[0].index;
      assert os[i].status == Pending;
    }
  }

  /** A FAILED overlay does not stop the pass: a PENDING overlay after it is still sent to capture. */
  lemma PendingAfterFailureIsCaptured(os: seq<Overlay>, cursor: bool, f: nat, p: nat)
    requires f < p < |os| && os[f].status == Failed && os[p].status == Pending
    ensures Tick(os, cursor).failed
    ensures exists k :: 0 <= k < |Tick(os, cursor).requests| && Tick(os, cursor).requests[k] == CaptureRequest(p, cursor)
  {
  }

}

=== FILE: options.dfy ===
/**
 The command-line decision of `still`: options are taken left to right as
 `getopt` returns them for the option string "c:hp". `-h` ends processing with
 success, an unrecognised option (including `-c` without an argument) ends it with
 failure, `-c` records the command (a later `-c` replaces an earlier one) and `-p`
 turns on the cursor flag. After the last option a missing command is an error.
 */
module Options {
  import opened Wrappers

  /** One value returned by `getopt`. */
  datatype Item = Command(arg: string) | Help | Pointer | Unrecognized

  /** How option processing ends. */
  datatype Decision =
    | ShowHelp                               // usage on standard output, EXIT_SUCCESS
    | BadOption                              // usage on standard error, EXIT_FAILURE
    | MissingCommand                         // error and usage on standard error, EXIT_FAILURE
    | Proceed(command: string, cursor: bool) // go on to connect and run

  /** Processing stops at this item: it is `-h` or an unrecognised option. */
  predicate Stops(it: Item)
  {
    it.Help? || it.Unrecognized?
  }

  /** The loop variables after the first `n` items, none of which stopped processing. */
  predicate Consumed(items: seq<Item>, n: nat, command: Option<string>, cursor: bool)
  {
    && n <= |items|
    && (forall j :: 0 <= j < n ==> !Stops(items[j]))
    && (cursor <==> exists j :: 0 <= j < n && items[j] == Pointer)
    && (command.None? <==> forall j :: 0 <= j < n ==> !items[j].Command?)
    && (command.Some? ==>
          exists j :: 0 <= j < n && items[j] == Command(command.value)
                      && forall l :: j < l < n ==> !items[l].Command?)
  }

  /** The `getopt` loop from item `i` on, then the missing-command check. */
  function Scan(items: seq<Item>, i: nat, command: Option<string>, cursor: bool): (d: Decision)
    requires Consumed(items, i, command, cursor)
    ensures d == ShowHelp <==>
      exists j :: i <= j < |items| && items[j] == Help && forall l :: i <= l < j ==> !Stops(items[l])
    ensures d == BadOption <==>
      exists j :: i <= j < |items| && items[j] == Unrecognized && forall l :: i <= l < j ==> !Stops(items[l])
    ensures d == MissingCommand <==> forall j :: 0 <= j < |items| ==> items[j] == Pointer
    ensures d.Proceed? ==>
      && (forall j :: 0 <= j < |items| ==> !Stops(items[j]))
      && (d.cursor <==> exists j :: 0 <= j < |items| && items[j] == Pointer)
      && exists j :: 0 <= j < |items| && items[j] == Command(d.command)
                     && forall l :: j < l < |items| ==> !items[l].Command?
    decreases |items| - i
  {
    if i == |items| then
      if command.None? then MissingCommand else Proceed(command.value, cursor)
    else
      match items[i]
      case Command(arg) =>
        assert items[i] == Command(arg);
        Scan(items, i + 1, Some(arg), cursor)
      case Help => ShowHelp
      case Pointer => Scan(items, i + 1, command, true)
      case Unrecognized => BadOption
  }

  /**
   The option decision for the whole command line. `-h` wins when it comes before
   any unrecognised option, and an unrecognised option wins when it comes before
   any `-h`; otherwise the run proceeds exactly when some `-c` was given, with the
   argument of the last `-c` and the cursor flag set exactly when `-p` appeared.
   */
  function Decide(items: seq<Item>): (d: Decision)
    ensures d == ShowHelp <==>
      exists j :: 0 <= j < |items| && items[j] == Help && forall l :: 0 <= l < j ==> !Stops(items[l])
    ensures d == BadOption <==>
      exists j :: 0 <= j < |items| && items[j] == Unrecognized && forall l :: 0 <= l < j ==> !Stops(items[l])
    ensures d == MissingCommand <==> forall j :: 0 <= j < |items| ==> items[j] == Pointer
    ensures d.Proceed? <==>
      (forall j :: 0 <= j < |items| ==> !Stops(items[j])) && exists j :: 0 <= j < |items| && items[j].Command?
    ensures d.Proceed? ==>
      && (d.cursor <==> exists j :: 0 <= j < |items| && items[j] == Pointer)
      && exists j :: 0 <= j < |items| && items[j] == Command(d.command)
                     && forall l :: j < l < |items| ==> !items[l].Command?
  {
    Scan(items, 0, None, false)
  }

  /** The program name used in the usage text: `argv[0]`, or "still" when it is NULL or empty. */
  function BinName(argv0: Option<string>): (name: string)
    ensures |name| > 0
    ensures argv0.Some? && |argv0.value| > 0 ==> name == argv0.value
    ensures argv0.None? || |argv0.value| == 0 ==> name == "still"
  {
    if argv0.None? || |argv0.value| == 0 then "still" else argv0.value
  }

}

=== FILE: overlays.dfy ===
/**
 The per-output overlay record of `still`: the bound `wl_output`, the transform
 learned from its geometry event and the capture status that the launch gate reads.
 The capture module itself (buffers, screencopy frames, layer surfaces) is not part
 of this model; only the status tag it leaves behind is.
 */
module Overlays {

  /** Capture progress of one output. */
  datatype Status = Pending | Waiting | Ready | Failed

  /** A bound protocol object: the registry name it was bound from and the version requested. */
  datatype Proxy = Proxy(name: nat, version: nat)

  datatype Overlay = Overlay(output: Proxy, transform: int, status: Status)

  /** `WL_OUTPUT_TRANSFORM_NORMAL`, the value of a zero-initialised transform field. */
  const NormalTransform: int := 0

  /**
   The overlay appended for a newly announced output. The C initialiser names only
   the globals back-reference and the output, so every other field is zero: the
   transform is normal and the status is the first enumerator, PENDING.
   */
  function NewOverlay(output: Proxy): Overlay
  {
    Overlay(output, NormalTransform, Pending)
  }

  /**
   A geometry event for overlay `i`: the handler stores the event's transform and
   ignores every other field. An index outside the list names no overlay and
   changes nothing (the protocol cannot deliver one).
   */
  function OnGeometry(os: seq<Overlay>, i: nat, transform: int): (r: seq<Overlay>)
    ensures |r| == |os|
    ensures i < |os| ==> r[i].transform == transform
    ensures i < |os| ==> r[i].output == os[i].output && r[i].status == os[i].status
    ensures forall j :: 0 <= j < |os| && j != i ==> r[j] == os[j]
  {
    if i < |os| then os[i := os[i].(transform := transform)] else os
  }

  /**
   The capture module moving overlay `i` to `status`. How and when it does so is
   opaque here: the model only knows that one overlay's tag changes and nothing else.
   */
  function OnCaptureProgress(os: seq<Overlay>, i: nat, status: Status): (r: seq<Overlay>)
    ensures |r| == |os|
    ensures i < |os| ==> r[i].status == status
    ensures i < |os| ==> r[i].output == os[i].output && r[i].transform == os[i].transform
    ensures forall j :: 0 <= j < |os| && j != i ==> r[j] == os[j]
  {
    if i < |os| then os[i := os[i].(status := status)] else os
  }

}

=== FILE: program.dfy ===
/**
 The whole of `main`: the option decision, the signal and display setup, the main
 loop, and the teardown, with the status `main` returns and the exit status the
 operating system reports for it.
 */
module Program {
  import opened Wrappers
  import Options
  import Registry
  import Gate
  import Driver
  import Teardown

  datatype Stream = Stdout | Stderr

  /** A setup step with an outside effect, in the order `main` attempts them. */
  datatype SetupCall = SignalSetup | Connect

  /** Where start-up leaves the program. */
  datatype Start =
    | Quit(status: int, usage: Option<Stream>, calls: seq<SetupCall>)
    | Enter(command: string, cursor: bool, calls: seq<SetupCall>)

  /**
   Start-up: options first, then the signalfd (`signalOk` is false when any of
   sigemptyset, sigaddset, sigprocmask or signalfd fails), then the display
   connection. Every option outcome other than proceeding returns before any setup
   call: `-h` with usage on standard output and status 0, an unrecognised option
   or a missing `-c` with usage on standard error and status 1. A failed signal
   setup returns 1 before the connection is attempted, and a failed connection
   returns 1; neither prints usage.
   */
  function Startup(items: seq<Options.Item>, signalOk: bool, connectOk: bool): (r: Start)
    ensures Options.Decide(items) == Options.ShowHelp ==> r == Quit(0, Some(Stdout), [])
    ensures Options.Decide(items) == Options.BadOption ==> r == Quit(1, Some(Stderr), [])
    ensures Options.Decide(items) == Options.MissingCommand ==> r == Quit(1, Some(Stderr), [])
    ensures Connect in r.calls ==> Options.Decide(items).Proceed? && signalOk
    ensures r.Enter? <==> Options.Decide(items).Proceed? && signalOk && connectOk
    ensures r.Enter? ==> r.command == Options.Decide(items).command && r.cursor == Options.Decide(items).cursor
    ensures r.Quit? && r.status == 0 ==> r.usage == Some(Stdout)
    ensures Options.Decide(items).Proceed? && !signalOk ==> r == Quit(1, None, [SignalSetup])
    ensures Options.Decide(items).Proceed? && signalOk && !connectOk ==> r == Quit(1, None, [SignalSetup, Connect])
  {
    match Options.Decide(items)
    case ShowHelp => Quit(0, Some(Stdout), [])
    case BadOption => Quit(1, Some(Stderr), [])
    case MissingCommand => Quit(1, Some(Stderr), [])
    case Proceed(command, cursor) =>
      if !signalOk then Quit(1, None, [SignalSetup])
      else if !connectOk then Quit(1, None, [SignalSetup, Connect])
      else Enter(command, cursor, [SignalSetup, Connect])
  }

  /** How `main` ends. */
  datatype Exit =
    | Polling                               // still waiting in `poll` for the next event
    | Returned(status: int)                 // `main` returns `status`
    | NullDestroy(slot: Registry.Slot)      // teardown hands a NULL proxy to the destructor of `slot`

  /**
   What `main` does: how it ends, how many times it forked, the capture calls it
   made in order, and the teardown actions carried out (none when it returned
   before the loop or is still in it).
   */
  datatype Result = Result(exit: Exit, forks: nat, captures: seq<Gate.CaptureRequest>,
                           released: seq<Teardown.Action>)

  /**
   The whole of `main`. A start-up failure returns its status with nothing forked,
   captured or released. Otherwise the command is forked at most once, every
   capture call carries the `-p` flag, and once the loop is left the teardown of
   the globals the loop ended with runs, as far as it gets. When `main` returns
   after the loop, it returns the status the loop ended with.
   It reaches `return` and ends with the disconnect exactly when every global slot
   is bound; otherwise it stops at the NULL destroy of the first unbound slot.
   */
  function Main(items: seq<Options.Item>, signalOk: bool, connectOk: bool, its: seq<Driver.Iteration>): (r: Result)
    ensures Startup(items, signalOk, connectOk).Quit? ==>
      r == Result(Returned(Startup(items, signalOk, connectOk).status), 0, [], [])
    ensures r.forks <= 1
    ensures r.forks == 1 ==> Startup(items, signalOk, connectOk).Enter?
    ensures forall k :: 0 <= k < |r.captures| ==>
      Options.Decide(items).Proceed? && r.captures[k].cursor == Options.Decide(items).cursor
    ensures r.exit.Polling? ==> r.released == []
    ensures Startup(items, signalOk, connectOk).Enter? && !r.exit.Polling? ==>
      r.released == Teardown.Performed(
        Driver.Run(Driver.Init(), its, Startup(items, signalOk, connectOk).cursor).final.globals)
    ensures r.exit.Returned? && Startup(items, signalOk, connectOk).Enter? ==>
      && r.exit.status == Driver.Run(Driver.Init(), its, Startup(items, signalOk, connectOk).cursor).final.status
      && r.released != [] && r.released[|r.released| - 1] == Teardown.Disconnect
    ensures r.exit.NullDestroy? ==>
      && Startup(items, signalOk, connectOk).Enter?
      && r.released != [] && r.released[|r.released| - 1] == Teardown.DestroyGlobal(r.exit.slot, None)
      && Teardown.Disconnect !in r.released
  {
    match Startup(items, signalOk, connectOk)
    case Quit(status, _, _) => Result(Returned(status), 0, [], [])
    case Enter(_, cursor, _) =>
      var t := Driver.Run(Driver.Init(), its, cursor);
      Driver.AtMostOneFork(Driver.Init(), its, cursor);
      Driver.RequestsCarryCursor(Driver.Init(), its, cursor);
      AfterLoop(t)
  }

  /**
   What follows a run of the loop: nothing while it still runs. Once it has been
   left, the teardown runs. It returns the loop's status after the disconnect when
   every slot is bound, and stops at the NULL destroy of the first unbound slot
   otherwise.
   */
  function AfterLoop(t: Driver.Trace): (r: Result)
    ensures r.forks == t.forks && r.captures == t.requests
    ensures r.exit.Polling? <==> t.final.running
    ensures !t.final.running ==> r.released == Teardown.Performed(t.final.globals)
    ensures r.exit.Polling? ==> r.released == []
    ensures r.exit.Returned? ==>
      && r.exit.status == t.final.status && Teardown.FirstUnbound(t.final.globals).None?
      && r.released != [] && r.released[|r.released| - 1] == Teardown.Disconnect
    ensures r.exit.NullDestroy? ==>
      && Teardown.FirstUnbound(t.final.globals) == Some(r.exit.slot)
      && r.released != [] && r.released[|r.released| - 1] == Teardown.DestroyGlobal(r.exit.slot, None)
      && Teardown.Disconnect !in r.released
  {
    if t.final.running then Result(Polling, t.forks, t.requests, [])
    else
      var g := t.final.globals;
      var ending := match Teardown.FirstUnbound(g)
        case None => Returned(t.final.status)
        case Some(slot) => NullDestroy(slot);
      Result(ending, t.forks, t.requests, Teardown.Performed(g))
  }

  /** The exit status the parent of `still` sees: the low eight bits of the value `main` returns. */
  function ProcessExitStatus(status: int): (code: int)
    ensures 0 <= code < 256
    ensures 0 <= status < 256 ==> code == status
    ensures (code - status) % 256 == 0
  {
    status % 256
  }

  /**
   Exit-status propagation: when the launched command is reaped while the loop
   runs, the teardown follows. If every global slot is bound, `main` returns the
   command's exit code (0 and 255 included, and the system reports that same code),
   or -1 after a death by signal. If some slot is unbound, the teardown stops at
   the NULL destroy of the first one.
   */
  lemma ChildStatusPropagates(items: seq<Options.Item>, its: seq<Driver.Iteration>,
                              es: seq<Driver.Event>, t: Driver.Termination, f: Driver.Fork)
    requires Options.Decide(items).Proceed?
    requires Driver.Run(Driver.Init(), its, Options.Decide(items).cursor).final.running
    ensures var cursor := Options.Decide(items).cursor;
      var g := Driver.ApplyAll(Driver.Run(Driver.Init(), its, cursor).final.globals, es);
      var r := Main(items, true, true, its + [Driver.Iteration(Driver.Dispatched(es), Driver.ChildChanged(Driver.Reaped(t)), f)]);
      && r.released != []
      && (Teardown.FirstUnbound(g).None? ==> r.exit == Returned(Driver.ChildStatus(t)))
      && (Teardown.FirstUnbound(g).None? && t.Exited? ==> ProcessExitStatus(r.exit.status) == t.code)
      && (Teardown.FirstUnbound(g).Some? ==> r.exit == NullDestroy(Teardown.FirstUnbound(g).value))
  {
    var cursor := Options.Decide(items).cursor;
    var last := Driver.Iteration(Driver.Dispatched(es), Driver.ChildChanged(Driver.Reaped(t)), f);
    Driver.RunConcat(Driver.Init(), its, [last], cursor);
    var ra := Driver.Run(Driver.Init(), its, cursor);
    var s := ra.final;
    Driver.ChildExitEndsLoop(s, es, t, f, cursor);
    var o := Driver.Step(s, last, cursor);
    assert [last][1..] == [];
    assert Driver.Run(s, [last], cursor).final == o.next;
    var run := Driver.Run(Driver.Init(), its + [last], cursor);
    assert run.final == o.next;
    assert !run.final.running && run.final.status == Driver.ChildStatus(t);
    assert Startup(items, true, true) == Enter(Options.Decide(items).command, cursor, [SignalSetup, Connect]);
    assert Main(items, true, true, its + [last]) == AfterLoop(run);
  }

  /**
   The -1 a death by signal leaves differs from every exit code inside `main`, but
   the operating system keeps only its low eight bits: the caller sees 255, the
   same as for a command that exits with 255.
   */
  lemma SignalDeathSeenAs255(signal: nat)
    ensures Driver.ChildStatus(Driver.Signaled(signal)) != Driver.ChildStatus(Driver.Exited(255))
    ensures ProcessExitStatus(Driver.ChildStatus(Driver.Signaled(signal))) == 255
    ensures ProcessExitStatus(Driver.ChildStatus(Driver.Exited(255))) == 255
  {
  }

}

=== FILE: registry.dfy ===
/**
 The registry listener of `still`: every announced global whose interface the
 program knows is bound at a fixed version; a `wl_output` becomes a new overlay at
 the end of the overlay list; anything else is ignored.
 */
module Registry {
  import opened Wrappers
  import opened Overlays

  /** The singleton globals the program keeps one slot for. */
  datatype Slot = Compositor | Shm | Viewporter | LayerShell | ScreencopyManager

  /** An interface the registry listener recognises. */
  datatype Interface = Single(slot: Slot) | Output

  /** The process-wide globals: one slot per singleton interface and the overlay list. */
  datatype Globals = Globals(
    compositor: Option<Proxy>,
    shm: Option<Proxy>,
    viewporter: Option<Proxy>,
    layerShell: Option<Proxy>,
    screencopy: Option<Proxy>,
    overlays: seq<Overlay>)

  /** The zero-initialised globals: nothing bound, no overlays. */
  function Empty(): Globals
  {
    Globals(None, None, None, None, None, [])
  }

  function InterfaceName(i: Interface): string
  {
    match i
    case Single(Compositor) => "wl_compositor"
    case Single(Shm) => "wl_shm"
    case Output => "wl_output"
    case Single(Viewporter) => "wp_viewporter"
    case Single(LayerShell) => "zwlr_layer_shell_v1"
    case Single(ScreencopyManager) => "zwlr_screencopy_manager_v1"
  }

  /** The version each interface is bound at, whatever version the compositor advertises. */
  function BindVersion(i: Interface): nat
  {
    match i
    case Single(Compositor) => 4
    case Single(Shm) => 1
    case Output => 4
    case Single(Viewporter) => 1
    case Single(LayerShell) => 3
    case Single(ScreencopyManager) => 3
  }

  /** The chain of name comparisons in the registry listener. */
  function Classify(name: string): (r: Option<Interface>)
    ensures r.Some? ==> InterfaceName(r.value) == name
    ensures r.None? ==> forall i: Interface :: InterfaceName(i) != name
  {
    if name == "wl_compositor" then Some(Single(Compositor))
    else if name == "wl_shm" then Some(Single(Shm))
    else if name == "wl_output" then Some(Output)
    else if name == "wp_viewporter" then Some(Single(Viewporter))
    else if name == "zwlr_layer_shell_v1" then Some(Single(LayerShell))
    else if name == "zwlr_screencopy_manager_v1" then Some(Single(ScreencopyManager))
    else None
  }

  function Get(g: Globals, s: Slot): Option<Proxy>
  {
    match s
    case Compositor => g.compositor
    case Shm => g.shm
    case Viewporter => g.viewporter
    case LayerShell => g.layerShell
    case ScreencopyManager => g.screencopy
  }

  function Set(g: Globals, s: Slot, p: Option<Proxy>): (r: Globals)
    ensures Get(r, s) == p
    ensures forall t :: t != s ==> Get(r, t) == Get(g, t)
    ensures r.overlays == g.overlays
  {
    match s
    case Compositor => g.(compositor := p)
    case Shm => g.(shm := p)
    case Viewporter => g.(viewporter := p)
    case LayerShell => g.(layerShell := p)
    case ScreencopyManager => g.(screencopy := p)
  }

  /**
   One `global` event: registry name `name`, interface `iface`, advertised
   version `version` (unused: the program binds at its own fixed versions).
   */
  function OnGlobal(g: Globals, name: nat, iface: string, version: nat): (r: Globals)
    ensures Classify(iface).None? ==> r == g
    ensures iface == "wl_output" ==>
      && r.overlays == g.overlays + [NewOverlay(Proxy(name, 4))]
      && forall s :: Get(r, s) == Get(g, s)
    ensures Classify(iface).Some? && Classify(iface).value.Single? ==>
      var s := Classify(iface).value.slot;
      && Get(r, s) == Some(Proxy(name, BindVersion(Single(s))))
      && (forall t :: t != s ==> Get(r, t) == Get(g, t))
      && r.overlays == g.overlays
  {
    match Classify(iface)
    case None => g
    case Some(Output) => g.(overlays := g.overlays + [NewOverlay(Proxy(name, BindVersion(Output)))])
    case Some(Single(s)) => Set(g, s, Some(Proxy(name, BindVersion(Single(s)))))
  }

}

=== FILE: teardown.dfy ===
/**
 The release sequence after the main loop: the signalfd is closed, every overlay
 is destroyed in list order, the overlay array is freed, the registry and the
 bound globals are destroyed, and the display is disconnected last.
 */
module Teardown {
  import opened Wrappers
  import opened Overlays
  import Registry

  datatype Action =
    | CloseSignalFd
    | DestroyOverlay(index: nat)
    | FreeOverlays
    | DestroyRegistry
    | DestroyGlobal(slot: Registry.Slot, proxy: Option<Proxy>)
    | Disconnect

  /** An action that releases something the overlays may still refer to. */
  predicate ReleasesShared(a: Action)
  {
    a.FreeOverlays? || a.DestroyRegistry? || a.DestroyGlobal? || a.Disconnect?
  }

  /** The overlays are destroyed one by one, front to back. */
  function DestroyOverlays(n: nat): (t: seq<Action>)
    ensures |t| == n
    ensures forall i :: 0 <= i < n ==> t[i] == DestroyOverlay(i)
  {
    seq(n, i requires 0 <= i => DestroyOverlay(i))
  }

  /** The globals, in the order they are destroyed; each slot is passed whatever it holds, bound or not. */
  function DestroyGlobals(g: Registry.Globals): seq<Action>
  {
    [ DestroyGlobal(Registry.ScreencopyManager, g.screencopy),
      DestroyGlobal(Registry.LayerShell, g.layerShell),
      DestroyGlobal(Registry.Viewporter, g.viewporter),
      DestroyGlobal(Registry.Compositor, g.compositor),
      DestroyGlobal(Registry.Shm, g.shm) ]
  }

  /**
   The teardown for the globals `g` the loop ended with. The signalfd is closed
   first and only then. Every overlay is destroyed exactly once, in list order,
   before the overlay array is freed and before any global is destroyed. The array
   is freed once and the registry destroyed once, the registry before the globals.
   Each global slot is destroyed exactly once with the object it holds. The display
   disconnect is the last action and happens only once.
   */
  function Teardown(g: Registry.Globals): (t: seq<Action>)
    ensures |t| > 0 && t[0] == CloseSignalFd
    ensures forall i :: 0 <= i < |g.overlays| ==> DestroyOverlay(i) in t
    ensures forall p :: 0 <= p < |t| && t[p].DestroyOverlay? ==> t[p].index < |g.overlays|
    ensures forall p, q :: 0 <= p < q < |t| && t[p].DestroyOverlay? && t[q].DestroyOverlay? ==>
      t[p].index < t[q].index
    ensures forall p, q :: 0 <= p < |t| && 0 <= q < |t| && t[p].DestroyOverlay? && ReleasesShared(t[q]) ==>
      p < q
    ensures forall s :: DestroyGlobal(s, Registry.Get(g, s)) in t
    ensures forall p, q ::
      (0 <= p < |t| && 0 <= q < |t| && t[p].DestroyGlobal? && t[q].DestroyGlobal? && t[p].slot == t[q].slot)
      ==> p == q
    ensures forall p, q :: 0 <= p < |t| && 0 <= q < |t| && t[p].DestroyRegistry? && t[q].DestroyGlobal? ==>
      p < q
    ensures t[|t| - 1] == Disconnect
    ensures forall p :: 0 <= p < |t| - 1 ==> t[p] != Disconnect
    ensures FreeOverlays in t && DestroyRegistry in t
    ensures forall p, q :: 0 <= p < |t| && 0 <= q < |t| && t[p].FreeOverlays? && t[q].FreeOverlays? ==> p == q
    ensures forall p, q :: 0 <= p < |t| && 0 <= q < |t| && t[p].DestroyRegistry? && t[q].DestroyRegistry? ==> p == q
    ensures forall p :: 0 < p < |t| ==> t[p] != CloseSignalFd
  {
    var t := Sequence(g);
    Layout(g, t);
    OverlayOrder(g, t);
    GlobalOrder(g, t);
    t
  }

  function Sequence(g: Registry.Globals): seq<Action>
  {
    [CloseSignalFd] + DestroyOverlays(|g.overlays|) + [FreeOverlays, DestroyRegistry] + DestroyGlobals(g) + [Disconnect]
  }

  /** Overlay destruction, read off the layout: each once, in order, before anything shared is released. */
  lemma OverlayOrder(g: Registry.Globals, t: seq<Action>)
    requires |t| == |g.overlays| + 9 && forall p :: 0 <= p < |t| ==> t[p] == At(g, p)
    ensures forall i :: 0 <= i < |g.overlays| ==> DestroyOverlay(i) in t
    ensures forall p :: 0 <= p < |t| && t[p].DestroyOverlay? ==> t[p].index < |g.overlays|
    ensures forall p, q :: 0 <= p < q < |t| && t[p].DestroyOverlay? && t[q].DestroyOverlay? ==>
      t[p].index < t[q].index
    ensures forall p, q :: 0 <= p < |t| && 0 <= q < |t| && t[p].DestroyOverlay? && ReleasesShared(t[q]) ==>
      p < q
  {
    forall i | 0 <= i < |g.overlays| ensures DestroyOverlay(i) in t {
      assert t[i + 1] == DestroyOverlay(i);
    }
  }

  /** Global destruction, read off the layout: each slot once, after the registry; disconnect last and once. */
  lemma GlobalOrder(g: Registry.Globals, t: seq<Action>)
    requires |t| == |g.overlays| + 9 && forall p :: 0 <= p < |t| ==> t[p] == At(g, p)
    ensures forall s :: DestroyGlobal(s, Registry.Get(g, s)) in t
    ensures forall p, q ::
      (0 <= p < |t| && 0 <= q < |t| && t[p].DestroyGlobal? && t[q].DestroyGlobal? && t[p].slot == t[q].slot)
      ==> p == q
    ensures forall p, q :: 0 <= p < |t| && 0 <= q < |t| && t[p].DestroyRegistry? && t[q].DestroyGlobal? ==>
      p < q
    ensures t[|t| - 1] == Disconnect
    ensures forall p :: 0 <= p < |t| - 1 ==> t[p] != Disconnect
    ensures FreeOverlays in t && DestroyRegistry in t
    ensures forall p, q :: 0 <= p < |t| && 0 <= q < |t| && t[p].FreeOverlays? && t[q].FreeOverlays? ==> p == q
    ensures forall p, q :: 0 <= p < |t| && 0 <= q < |t| && t[p].DestroyRegistry? && t[q].DestroyRegistry? ==> p == q
    ensures forall p :: 0 < p < |t| ==> t[p] != CloseSignalFd
  {
    var n := |g.overlays|;
    assert t[n + 1] == FreeOverlays && t[n + 2] == DestroyRegistry;
    forall s ensures DestroyGlobal(s, Registry.Get(g, s)) in t {
      match s
      case ScreencopyManager => assert t[n + 3] == DestroyGlobal(s, Registry.Get(g, s));
      case LayerShell => assert t[n + 4] == DestroyGlobal(s, Registry.Get(g, s));
      case Viewporter => assert t[n + 5] == DestroyGlobal(s, Registry.Get(g, s));
      case Compositor => assert t[n + 6] == DestroyGlobal(s, Registry.Get(g, s));
      case Shm => assert t[n + 7] == DestroyGlobal(s, Registry.Get(g, s));
    }
  }

  /** The action at position `p` of a teardown of `n` overlays. */
  function At(g: Registry.Globals, p: nat): Action
  {
    var n := |g.overlays|;
    if p == 0 then CloseSignalFd
    else if p <= n then DestroyOverlay(p - 1)
    else if p == n + 1 then FreeOverlays
    else if p == n + 2 then DestroyRegistry
    else if p < n + 8 then DestroyGlobals(g)[p - n - 3]
    else Disconnect
  }

  lemma Layout(g: Registry.Globals, t: seq<Action>)
    requires t == Sequence(g)
    ensures |t| == |g.overlays| + 9
    ensures forall p :: 0 <= p < |t| ==> t[p] == At(g, p)
  {
  }


  /** Where each slot's destroy comes among the five global destroys. */
  function DestroyRank(s: Registry.Slot): (k: nat)
    ensures k < 5 && DestroyGlobals(Registry.Empty())[k].slot == s
  {
    match s
    case ScreencopyManager => 0
    case LayerShell => 1
    case Viewporter => 2
    case Compositor => 3
    case Shm => 4
  }

  /**
   The first slot, in destroy order, that holds no object: None exactly when every
   slot is bound, and otherwise an unbound slot after which nothing earlier in the
   destroy order is unbound.
   */
  function FirstUnbound(g: Registry.Globals): (r: Option<Registry.Slot>)
    ensures r.None? <==> forall s :: Registry.Get(g, s).Some?
    ensures r.Some? ==> Registry.Get(g, r.value).None?
    ensures r.Some? ==> forall s :: DestroyRank(s) < DestroyRank(r.value) ==> Registry.Get(g, s).Some?
  {
    var r :=
      if g.screencopy.None? then Some(Registry.ScreencopyManager)
      else if g.layerShell.None? then Some(Registry.LayerShell)
      else if g.viewporter.None? then Some(Registry.Viewporter)
      else if g.compositor.None? then Some(Registry.Compositor)
      else if g.shm.None? then Some(Registry.Shm)
      else None;
    assert r.Some? ==> Registry.Get(g, r.value).None?;
    r
  }

  /**
   The part of the teardown that is carried out. Every destructor of an unbound
   slot is handed a NULL proxy, which libwayland dereferences, so the sequence stops
   at the first such call. It is always a prefix of the full teardown and always
   destroys every overlay. When every slot is bound it is the whole teardown. When
   some slot is unbound it ends with the NULL destroy of that slot, and the display
   is never disconnected.
   */
  function Performed(g: Registry.Globals): (t: seq<Action>)
    ensures |t| <= |Teardown(g)| && t == Teardown(g)[..|t|]
    ensures forall i :: 0 <= i < |g.overlays| ==> DestroyOverlay(i) in t
    ensures FirstUnbound(g).None? ==> t == Teardown(g)
    ensures FirstUnbound(g).Some? ==>
      && |t| > 0 && t[|t| - 1] == DestroyGlobal(FirstUnbound(g).value, None)
      && Disconnect !in t
  {
    var full := Teardown(g);
    match FirstUnbound(g)
    case None => full
    case Some(slot) =>
      StopsAt(g, slot);
      full[..|g.overlays| + 4 + DestroyRank(slot)]
  }

  /** The teardown cut off just after the destroy of `slot` when that slot is unbound. */
  lemma StopsAt(g: Registry.Globals, slot: Registry.Slot)
    requires Registry.Get(g, slot).None?
    ensures var t := Sequence(g)[..|g.overlays| + 4 + DestroyRank(slot)];
      && t[|t| - 1] == DestroyGlobal(slot, None)
      && Disconnect !in t
      && forall i :: 0 <= i < |g.overlays| ==> DestroyOverlay(i) in t
  {
    var full := Sequence(g);
    Layout(g, full);
    var t := full[..|g.overlays| + 4 + DestroyRank(slot)];
    assert forall i :: 0 <= i < |g.overlays| ==> t[i + 1] == DestroyOverlay(i);
  }

}

=== FILE: wrappers.dfy ===
/** A value that may be absent: a NULL pointer or an unset slot of the C program. */
module Wrappers {

  datatype Option<+T> = None | Some(value: T)

}
